=== FILE: README.md ===
# Bill Splitter Bot — a verified model of its conversation

The bot walks one Telegram user through splitting a restaurant bill. After
`/start` it asks for the bill amount, then a tip percentage (with a menu of
presets and a `Custom` choice), then the number of people (again with presets
and `Custom`), and finally replies with the tip amount, the total and each
person's share. `/cancel` ends the conversation at any step. Invalid input at
any step is answered with a re-prompt and the conversation stays where it is.

This project models that conversation in Dafny:

- `Wrappers` (`wrappers.dfy`): `Option` and `Result`.
- `Numerals` (`numerals.dfy`): the decimal numerals that Python's `float()` and
  `int()` accept, as partial parse functions `ParseReal` and `ParseInt`. A
  decimal's value is its digits read as one integer, divided by ten to the
  number of digits after the point; signs and leading zeros are stated as
  lemmas. `ShowNat` renders whole numbers for round trips.
- `FixedPoint` (`fixed.dfy`): a fixed-point renderer `ShowFixed` and its round
  trip through `ParseReal`, plus worked numerals.
- `Text` (`text.dfy`): `RemoveAll`, the model of `str.replace('%', '')`.
- `BillSplit` (`split.dfy`): the final arithmetic, over exact reals.
- `Handlers` (`handlers.dfy`): the states `BILL`, `TIP`, `PEOPLE` and
  `ConversationHandler.END`; the user's data dictionary (`bill` and `tip`, each
  optional); the two preset menus; and the five handlers `start`,
  `bill_amount`, `tip_percentage`, `people_count` and `cancel`, each a pure
  function from (stored data, message text) to (next state, data, reply).
  The reply is modelled by which message is sent and which keyboard goes with
  it, not by its wording.
- `Presets` (`presets.dfy`): properties of the handlers on particular inputs:
  percent signs, the preset menus, the `Custom` choice, sample bills.
- `Conversation` (`conversation.dfy`): the conversation handler's routing
  table (`/start` entry point, one text handler per state, `/cancel`
  fallback), `Run` over a sequence of updates, and the reachability invariant:
  at `TIP` a positive bill is stored, at `PEOPLE` a non-negative tip is stored
  too. So the dictionary reads at `billbot.py:117-118` never raise
  `KeyError`, and the computed share is positive and adds back up to the
  total.

On a new text message `people_count` can raise two exceptions that its
`except ValueError` does not catch. The first is a `KeyError` from the reads
at lines 117-118, modelled as `MissingKey`; the invariant proves it never happens from a new user's first
update onward. The second is an `OverflowError` at line 122, modelled as
`IntTooLarge`. It occurs when the head count is at least 2^1024 - 2^970, the
smallest integer that does not convert to a double; "1" followed by 309 zeros
is one such count. Nothing in the code prevents it. A handler that raises
sends no reply and leaves the conversation where it was, which is how
`Run` treats it (`Conversation.RunStep`, `Conversation.HugeCountStaysAtPeople`).

Some behaviours of the code a reader may not expect:

- The tip handler removes every `%` anywhere in the text, not only a trailing
  one. As a consequence `"Cus%tom"` counts as `Custom` at the tip step, while
  the head-count step compares the text exactly (`Presets.CustomMatching`).
- `/cancel` does not clear the stored data, and `/start` does not reset it:
  the bill and tip of an earlier conversation are still stored when a new one
  begins (`Conversation.StoredDataPersists`). Entering `TIP` always stores a
  fresh bill and entering `PEOPLE` a fresh tip, so `Conversation.ReachableIsValid`
  holds whatever an earlier conversation left behind.
- The head count is never stored; it is used once to compute the summary.
- `/start` in the middle of a conversation is not answered, because the
  conversation handler does not allow re-entry. Outside a conversation only
  `/start` is answered; `/cancel` is not.
- A negative tip is re-prompted without a menu, while an unparseable tip
  re-shows the tip menu.

## Model

| member | source | states |
|---|---|---|
| Numerals.ParseReal | billbot.py:28 | `float()` on a numeral: a parsed value is negative only when the text starts with `-` |
| Numerals.ParseInt | billbot.py:105 | `int()` on a numeral: a parsed value is negative only when the text starts with `-` |
| Numerals.ParseUnsignedDecimal | billbot.py:63 | accepted exactly when, with its point removed, the text is a non-empty run of digits and it has at most one point; the value is never negative and equals those digits read as one integer divided by ten to the number of digits after the point |
| Numerals.DecimalParts | billbot.py:28 | an accepted numeral with a point is worth its digits before the point plus its digits after the point over ten to their number |
| Numerals.ParseRealSigns | billbot.py:28 | `float()` reads a leading `-` as negation and a leading `+` as nothing |
| Numerals.ParseIntSigns | billbot.py:105 | `int()` reads a leading `-` as negation and a leading `+` as nothing |
| Numerals.ParseNatLeadingZero | billbot.py:105 | a leading zero does not change the value of a run of digits |
| Numerals.ShowNatRoundTrip | billbot.py:105 | a whole number written in decimal reads back through `int()` as itself |
| Numerals.IntNumeralIsRealNumeral | billbot.py:28 | every text `int()` accepts, `float()` accepts with the same value |
| Numerals.ShowNatParsesAsReal | billbot.py:63 | a whole number written in decimal reads back through `float()` as itself |
| FixedPoint.ShowFixedRoundTrip | billbot.py:63 | n written with k digits after the point reads back through `float()` as exactly n / 10^k |
| Numerals.IntNumeralExamples | billbot.py:105 | `-3`, `+3` and `007` read as -3, 3 and 7 |
| FixedPoint.ParsePointed | billbot.py:28 | digits, a point and digits, with at least one digit, read as the digits without the point divided by ten to the number after it |
| FixedPoint.PointedNumeralExample | billbot.py:28 | `12.50` reads as exactly 12.5 |
| Text.RemoveAll | billbot.py:53 | removing `%` leaves no `%` behind, never lengthens the text, shortens it when it held a `%`, and keeps every other character as often as before |
| Text.RemoveAllAppend | billbot.py:53 | removal on a concatenation is the concatenation of the removals |
| Text.RemoveAllAbsent | billbot.py:53 | text without `%` is left unchanged |
| Text.RemoveAllIdempotent | billbot.py:53 | removing twice is the same as removing once |
| Text.RemoveAllIgnoresAffix | billbot.py:53 | a leading or trailing `%` disappears |
| Text.RemoveAllSingle | billbot.py:53 | a single `%` between two `%`-free texts is dropped and the two are joined |
| Handlers.StripPercent | billbot.py:53 | the tip text has no `%` left before it is compared or parsed |
| Handlers.Start | billbot.py:16-23 | `start` always goes to `BILL` and neither stores nor clears data |
| Handlers.BillAmount | billbot.py:25-49 | goes to `TIP` exactly when the text parses to a positive number, storing it as `bill` with the tip menu; otherwise stays at `BILL` with the data unchanged; unparseable text gets the "enter a number" reply and a non-positive amount the "enter a positive amount" reply, neither with a menu |
| Handlers.TipPercentage | billbot.py:51-91 | after `%` removal: `Custom` stays at `TIP` with data unchanged and the menu removed; goes to `PEOPLE` exactly when the text is not `Custom` and parses to a value >= 0, storing it as `tip` with the head-count menu; otherwise stays at `TIP` with data unchanged, re-showing the tip menu for unparseable text and no menu for a negative tip |
| Handlers.PeopleCount | billbot.py:93-143 | exact `Custom` stays at `PEOPLE`; unparseable text and a count <= 0 stay at `PEOPLE` with their replies and the menu; raises exactly when the text is a positive integer and `bill` or `tip` is missing (`KeyError`, bill first) or the count does not convert to a double (`OverflowError`); otherwise ends with the split of the stored bill and tip; the data is never changed |
| Handlers.FloatOverflowBoundIsLarge | billbot.py:122 | the smallest count that raises `OverflowError` is at least 54 times 2^970, far above every preset count |
| Handlers.IntNumeralIsNotCustom | billbot.py:97-105 | no text that `int()` accepts is the `Custom` choice |
| Handlers.Cancel | billbot.py:145-151 | `cancel` ends the conversation and leaves the stored data as it was |
| BillSplit.Compute | billbot.py:120-122 | the shares times the head count equal the total, the total is the bill times (100 + tip) percent, and the tip amount is the total minus the bill |
| BillSplit.SplitBounds | billbot.py:120-122 | with bill > 0, tip >= 0 and people > 0: tip amount >= 0, total >= bill, and 0 < share <= total |
| BillSplit.SplitExamples | billbot.py:120-122 | 100 at 15% for 2 gives 15, 115 and 57.5 each; 50 at 0% for 3 gives 0, 50 and a share between 16.66 and 16.67 whose triple is 50 |
| Presets.TipDependsOnlyOnStrippedText | billbot.py:53-63 | two tip texts that agree once `%` is removed get identical answers |
| Presets.PercentSignIrrelevant | billbot.py:53 | `"15%"` and `"15"` (any text with or without a leading or trailing `%`) get identical answers |
| Presets.WholeTipAccepted | billbot.py:62-81 | a whole-number tip, with or without `%`, is stored as that number and moves to `PEOPLE` |
| Presets.TipPresetsAccepted | billbot.py:11 | every non-`Custom` entry of the tip menu is accepted and stores one of 10, 12, 15, 18, 20 |
| Presets.SmallCountAccepted | billbot.py:104-133 | a count from 1 to 6, with bill and tip stored, reads as itself and ends the conversation |
| Presets.PeoplePresetsAccepted | billbot.py:14 | every non-`Custom` entry of the head-count menu is an integer from 1 to 6 and, with bill and tip stored, ends the conversation |
| Presets.PercentInsideCustom | billbot.py:53-60 | `Custom` with one `%` inserted anywhere is still the custom choice at `TIP` |
| Presets.PercentIsNotACount | billbot.py:97-105 | a text with `%` as its fourth character is neither `Custom` nor a count, and the head-count menu is shown again |
| Presets.CustomMatching | billbot.py:53-60 | `"Cus%tom"` is the custom choice at `TIP` but an invalid number at `PEOPLE`; both keep state and data |
| Presets.ZeroTipAccepted | billbot.py:64-68 | a tip of `0` (or `0%`) is accepted and stored as 0 |
| Presets.BillRejectsText | billbot.py:47-49 | a bill of `abc` stays at `BILL`, stores nothing, and asks for a number |
| Presets.BillRejectsNonPositive | billbot.py:29-31 | bills of `0` and `-5` stay at `BILL`, store nothing, and ask for a positive amount |
| Presets.BillAcceptsDecimal | billbot.py:28-46 | a bill of `12.50` is stored as exactly 12.5 and the tip menu is shown |
| Conversation.Deliver | billbot.py:159-167 | only a text message at `PEOPLE` can raise; an update nobody answers changes nothing |
| Conversation.StartEntersBill | billbot.py:160 | `/start` outside a conversation opens it at `BILL` with the stored data kept |
| Conversation.CancelEndsKeepingData | billbot.py:166 | `/cancel` at `BILL`, `TIP` or `PEOPLE` ends the conversation, removes the menu and keeps `bill` and `tip` |
| Conversation.IdleIgnoresAllButStart | billbot.py:159-167 | outside a conversation every update but `/start` goes unanswered and changes nothing |
| Conversation.ActiveIgnoresOtherCommands | billbot.py:159-167 | in a conversation every command but `/cancel`, `/start` included, goes unanswered and changes nothing |
| Conversation.BillStep | billbot.py:162 | at `BILL` every plain text is answered with `bill_amount`'s reply; the conversation moves to `TIP` exactly when the text reads as a positive number, which is stored as `bill`, and otherwise nothing changes |
| Conversation.TipStep | billbot.py:163 | at `TIP` every plain text is answered with `tip_percentage`'s reply; the conversation moves to `PEOPLE` exactly when the text with every `%` removed is not `Custom` and reads as a non-negative number, which is stored as `tip`, and otherwise nothing changes |
| Conversation.PeopleStep | billbot.py:164 | at `PEOPLE` a plain text raises exactly when it is a positive count and the bill or tip is missing or the count is too large for a double, with `KeyError` for the bill before the tip before `OverflowError`; otherwise `people_count`'s reply is sent, the data is kept, and the conversation ends exactly on a positive count, staying unchanged on any other text |
| Conversation.DeliverKeepsValid | billbot.py:27-118 | from a state where a positive bill is stored at `TIP` and also a non-negative tip at `PEOPLE`, one update never raises `KeyError` and, when it does not raise, keeps that true |
| Conversation.Run | billbot.py:159-170 | each update raises at most once, so a run records no more exceptions than it was fed updates |
| Conversation.RunStep | billbot.py:159-170 | a single update that raises leaves the dialogue where it was and records its exception; one that does not moves to the dialogue it produced and records nothing |
| Conversation.RunAppend | billbot.py:159-170 | feeding two batches of updates one after the other ends in the same dialogue, with the exceptions of both batches in order, as feeding them at once; so every claim about a run holds for each of its prefixes |
| Conversation.RunKeepsValid | billbot.py:159-167 | the same holds for any sequence of new messages and commands: the only exceptions raised are `OverflowError` |
| Conversation.ReachableIsValid | billbot.py:117-118 | from a new user, no sequence of updates ever raises `KeyError`, and at `TIP` a positive bill is stored, at `PEOPLE` also a non-negative tip |
| Conversation.FinalSplitIsSound | billbot.py:104-133 | at `PEOPLE` a positive count that converts to a double ends the conversation with the split of the stored bill and tip, whose share is positive, times the count gives the total, and whose total is at least the bill; a larger count raises `OverflowError` |
| Conversation.ReportsSplit | billbot.py:117-133 | at `PEOPLE` a positive count that converts to a double ends the conversation, keeps the data and sends the split of the stored bill and tip |
| Conversation.RaisesOverflow | billbot.py:122 | at `PEOPLE` a count too large for a double raises `OverflowError` |
| Conversation.HugeCountStaysAtPeople | billbot.py:122 | a count too large for a double raises, sends no summary, and leaves the conversation at `PEOPLE` |
| Conversation.StoredDataPersists | billbot.py:145-151 | a stored bill or tip stays stored through any updates, `/cancel` and a later `/start` included |

## Left out

- The Telegram transport: `Update`, `reply_text`, the keyboard classes, `Application`, the token and `run_polling`. Replies are modelled as a message kind plus a keyboard, without their wording.
- The wording and `.2f` formatting of the summary (billbot.py:124-131); the summary carries the exact values.
- async/await and the conversation handler's dispatch. The handler keys a conversation by chat and user, but `user_data` is keyed by the user alone. A user with conversations in two chats therefore shares one `bill` and `tip`, and a bill entered in one chat is what the other chat's summary reports. The model covers one chat's conversation. Freedom from `KeyError` still holds across chats, because no handler deletes a key and every write keeps the invariant.
- Numerals.ParseReal: accepts only an optional sign, digits and at most one point. Python's `float()` also accepts surrounding whitespace, underscores between digits, exponents, non-ASCII digits, `inf` and `nan`; a bill of `nan` or `inf`, which the code would store, is not modelled, nor a tip of `nan`, which the code stores because `nan < 0` is false (billbot.py:64); with a `nan` bill or tip the stored values no longer meet the invariant's bounds and the share is `nan`, not positive, though freedom from `KeyError` still holds.
- Numerals.ParseReal: returns the exact decimal, not the nearest double. Underflow and overflow of `float()` are not modelled. A bill such as `0.` followed by 400 zeros and a `1` is 0.0 in Python and stays at `BILL`, but the model stores it. A tip such as `-0.` followed by 400 zeros and a `1` is -0.0 in Python and is accepted, but the model rejects it. A bill whose whole part, without leading zeros, has 310 or more digits, or any bill of at least 2^1024 - 2^970, is `inf` in Python.
- Numerals.ParseInt: accepts only an optional sign and ASCII digits; Python's `int()` also accepts surrounding whitespace, underscores and non-ASCII digits. The 4300-digit limit of recent Python versions is not modelled; a Telegram message of at most 4096 characters never reaches it.
- BillSplit.Compute: states exact real arithmetic; the code computes with IEEE doubles, and rounding is not modelled.
- Edited messages. The handlers also receive edits of earlier messages, for which `update.message` is `None`, so every handler would raise `AttributeError` (billbot.py:18, 28, 53, 95, 147; the `except ValueError` at line 47 does not catch it): the user gets no reply and the conversation stays where it was, and an edited `/cancel` does not end it. The model's updates are new messages and commands only.
- Which texts Telegram classifies as commands is not modelled: an update is given as either a command name or a plain text.

=== FILE: conversation.dfy ===
/** The conversation handler that ties the handlers together: the `start`
    entry point, one text handler per state, and the `cancel` fallback. One
    chat's conversation with one user is modelled. */
module Conversation {
  import opened Wrappers
  import opened Numerals
  import opened Handlers
  import BillSplit

  /** An incoming update: a bot command such as `/start` (by its name), or a
      plain text message that is not a command. */
  datatype Event = Command(name: string) | PlainText(text: string)

  /** The conversation state together with the user's stored data. */
  datatype Dialogue = Dialogue(state: State, data: Session)

  /** The effect of one update: the dialogue afterwards, and the reply, if
      any handler answered. */
  datatype Reaction = Reaction(after: Dialogue, reply: Option<Reply>)

  /** The end of a run of updates: the dialogue, and the exceptions raised on
      the way, in order. */
  datatype Trace = Trace(final: Dialogue, faults: seq<Fault>)

  /** A user who has never talked to the bot: no conversation, no stored data. */
  const Initial: Dialogue := Dialogue(Ended, Session(None, None))

  function Answer(s: Step): Reaction {
    Reaction(Dialogue(s.state, s.data), Some(s.reply))
  }

  /** Routes one update. Outside a conversation only `/start` is handled. In
      a conversation a plain text goes to the handler of the current state,
      `/cancel` goes to the fallback, and every other command (`/start`
      included, since re-entry is not allowed) goes unanswered. */
  function Deliver(c: Dialogue, e: Event): (r: Result<Reaction, Fault>)
    ensures r.Failure? ==> c.state == People && e.PlainText?
    ensures r.Success? && r.value.reply.None? ==> r.value.after == c
  {
    match c.state
    case Ended =>
      if e == Command("start") then Success(Answer(Start(c.data)))
      else Success(Reaction(c, None))
    case _ =>
      match e
      case Command(name) =>
        if name == "cancel" then Success(Answer(Cancel(c.data)))
        else Success(Reaction(c, None))
      case PlainText(text) =>
        match c.state
        case Bill => Success(Answer(BillAmount(c.data, text)))
        case Tip => Success(Answer(TipPercentage(c.data, text)))
        case People =>
          match PeopleCount(c.data, text)
          case Failure(f) => Failure(f)
          case Success(s) => Success(Answer(s))
  }

  /** Feeds a sequence of updates. A handler that raises sends no reply and
      leaves the conversation where it was; the exception is recorded. */
  function Run(c: Dialogue, events: seq<Event>): (t: Trace)
    ensures |t.faults| <= |events|
    decreases |events|
  {
    if |events| == 0 then Trace(c, [])
    else
      match Deliver(c, events[0])
      case Failure(f) =>
        var rest := Run(c, events[1..]);
        Trace(rest.final, [f] + rest.faults)
      case Success(r) => Run(r.after, events[1..])
  }

  /** A run of one update: an update that raises leaves the dialogue where
      it was and records its exception; any other moves to the dialogue it
      produced. With `RunAppend` this fixes the outcome of every run. */
  lemma RunStep(c: Dialogue, e: Event)
    ensures Deliver(c, e).Failure? ==> Run(c, [e]) == Trace(c, [Deliver(c, e).error])
    ensures Deliver(c, e).Success? ==> Run(c, [e]) == Trace(Deliver(c, e).value.after, [])
  {
    assert [e][1..] == [];
  }

  /** Feeding updates in two batches is feeding them at once: the second
      batch starts where the first left off, and the exceptions of both are
      recorded in order. So every claim about a run holds for each of its
      prefixes too. */
  lemma {:induction false} RunAppend(c: Dialogue, a: seq<Event>, b: seq<Event>)
    ensures Run(c, a + b).final == Run(Run(c, a).final, b).final
    ensures Run(c, a + b).faults == Run(c, a).faults + Run(Run(c, a).final, b).faults
    decreases |a|
  {
    if |a| > 0 {
      assert (a + b)[0] == a[0];
      assert (a + b)[1..] == a[1..] + b;
      match Deliver(c, a[0])
      case Failure(f) =>
        RunAppend(c, a[1..], b);
      case Success(r) =>
        RunAppend(r.after, a[1..], b);
    } else {
      assert a + b == b;
    }
  }

  /** What the bot holds in each state: at the tip a positive bill is stored,
      at the head count also a non-negative tip. */
  ghost predicate Valid(c: Dialogue) {
    && (c.state in {Tip, People} ==> c.data.bill.Some? && c.data.bill.value > 0.0)
    && (c.state == People ==> c.data.tip.Some? && c.data.tip.value >= 0.0)
  }

  /** `/start` outside a conversation always opens it at the bill, keeping the
      stored data. */
  lemma StartEntersBill(data: Session)
    ensures Deliver(Dialogue(Ended, data), Command("start"))
         == Success(Reaction(Dialogue(Bill, data), Some(Reply(Welcome, Unchanged))))
  {
  }

  /** `/cancel` in any state of a conversation ends it, removes the menu and
      leaves the stored bill and tip as they were. */
  lemma CancelEndsKeepingData(c: Dialogue)
    requires c.state != Ended
    ensures Deliver(c, Command("cancel"))
         == Success(Reaction(Dialogue(Ended, c.data), Some(Reply(Cancelled, Removed))))
  {
  }

  /** Outside a conversation, plain text and every command but `/start`
      (`/cancel` included) go unanswered. */
  lemma IdleIgnoresAllButStart(data: Session, e: Event)
    requires e != Command("start")
    ensures Deliver(Dialogue(Ended, data), e) == Success(Reaction(Dialogue(Ended, data), None))
  {
  }

  /** In a conversation, commands other than `/cancel`, `/start` included,
      go unanswered. */
  lemma ActiveIgnoresOtherCommands(c: Dialogue, name: string)
    requires c.state != Ended && name != "cancel"
    ensures Deliver(c, Command(name)) == Success(Reaction(c, None))
  {
  }

  /** At the bill, a plain text goes to `bill_amount`: a positive amount is
      stored and the conversation moves to the tip; any other text leaves the
      dialogue as it was. Either way the handler's reply is sent. */
  lemma BillStep(c: Dialogue, text: string)
    requires c.state == Bill
    ensures Deliver(c, PlainText(text)).Success?
    ensures var r := Deliver(c, PlainText(text)).value;
      && (r.after.state == Tip <==> ParseReal(text).Some? && ParseReal(text).value > 0.0)
      && (r.after.state == Tip ==> r.after.data == c.data.(bill := ParseReal(text)))
      && (r.after.state != Tip ==> r.after == c)
      && r.reply == Some(BillAmount(c.data, text).reply)
  {
  }

  /** At the tip, a plain text goes to `tip_percentage`: with every `%`
      removed, a number that is not negative is stored and the conversation
      moves to the head count; any other text, `Custom` included, leaves the
      dialogue as it was. */
  lemma TipStep(c: Dialogue, text: string)
    requires c.state == Tip
    ensures Deliver(c, PlainText(text)).Success?
    ensures var r := Deliver(c, PlainText(text)).value;
      var t := StripPercent(text);
      && (r.after.state == People <==> t != CustomLabel && ParseReal(t).Some? && ParseReal(t).value >= 0.0)
      && (r.after.state == People ==> r.after.data == c.data.(tip := ParseReal(t)))
      && (r.after.state != People ==> r.after == c)
      && r.reply == Some(TipPercentage(c.data, text).reply)
  {
  }

  /** At the head count, a plain text goes to `people_count`: it raises
      `KeyError` for a missing bill, then tip, or `OverflowError`, only for a
      positive count; a positive count that does not raise ends the
      conversation; any other text leaves the dialogue as it was. The stored
      data is never changed. */
  lemma PeopleStep(c: Dialogue, text: string)
    requires c.state == People
    ensures var count := ParseInt(text);
      Deliver(c, PlainText(text)).Failure? <==>
        && text != CustomLabel && count.Some? && count.value > 0
        && (c.data.bill.None? || c.data.tip.None? || count.value >= FloatOverflowBound)
    ensures Deliver(c, PlainText(text)).Failure? ==>
      Deliver(c, PlainText(text)).error
        == (if c.data.bill.None? then MissingKey("bill") else if c.data.tip.None? then MissingKey("tip") else IntTooLarge)
    ensures var d := Deliver(c, PlainText(text));
      d.Success? ==>
        && d.value.after.data == c.data
        && (d.value.after.state == Ended <==> text != CustomLabel && ParseInt(text).Some? && ParseInt(text).value > 0)
        && (d.value.after.state != Ended ==> d.value.after == c)
        && d.value.reply == Some(PeopleCount(c.data, text).value.reply)
  {
  }

  /** One update from a valid dialogue never raises `KeyError` and leaves a
      valid dialogue; the only exception left is `OverflowError`. */
  lemma DeliverKeepsValid(c: Dialogue, e: Event)
    requires Valid(c)
    ensures Deliver(c, e).Failure? ==> Deliver(c, e).error == IntTooLarge
    ensures Deliver(c, e).Success? ==> Valid(Deliver(c, e).value.after)
  {
  }

  /** Any number of updates from a valid dialogue never raise `KeyError` and
      leave a valid dialogue. */
  lemma {:induction false} RunKeepsValid(c: Dialogue, events: seq<Event>)
    requires Valid(c)
    ensures Valid(Run(c, events).final)
    ensures forall i :: 0 <= i < |Run(c, events).faults| ==> Run(c, events).faults[i] == IntTooLarge
    decreases |events|
  {
    if |events| > 0 {
      DeliverKeepsValid(c, events[0]);
      match Deliver(c, events[0])
      case Failure(f) =>
        RunKeepsValid(c, events[1..]);
      case Success(r) =>
        RunKeepsValid(r.after, events[1..]);
    }
  }

  /** Every dialogue reachable from a new user is valid, and no update ever
      raises `KeyError`: the bill and tip lookups of the head-count step
      never miss. */
  lemma ReachableIsValid(events: seq<Event>)
    ensures var t := Run(Initial, events);
      && (t.final.state in {Tip, People} ==> t.final.data.bill.Some? && t.final.data.bill.value > 0.0)
      && (t.final.state == People ==> t.final.data.tip.Some? && t.final.data.tip.value >= 0.0)
      && forall i :: 0 <= i < |t.faults| ==> !t.faults[i].MissingKey?
  {
    RunKeepsValid(Initial, events);
  }

  /** In a valid dialogue at the head count, a positive count below the
      overflow bound ends the conversation with a summary of the stored bill
      and tip whose shares are positive and add up to the total, and the
      total is at least the bill; a larger count raises `OverflowError`. */
  lemma FinalSplitIsSound(c: Dialogue, text: string)
    requires Valid(c) && c.state == People
    requires ParseInt(text).Some? && ParseInt(text).value > 0
    ensures ParseInt(text).value >= FloatOverflowBound ==> Deliver(c, PlainText(text)) == Failure(IntTooLarge)
    ensures ParseInt(text).value < FloatOverflowBound ==>
      var s := BillSplit.Compute(c.data.bill.value, c.data.tip.value, ParseInt(text).value);
      && Deliver(c, PlainText(text)) == Success(Reaction(Dialogue(Ended, c.data), Some(Reply(Report(s), Removed))))
      && s.perPerson > 0.0
      && s.perPerson * ParseInt(text).value as real == s.total
      && s.total >= c.data.bill.value
  {
    var n := ParseInt(text).value;
    if n >= FloatOverflowBound {
      RaisesOverflow(c, text);
    } else {
      ReportsSplit(c, text);
      BillSplit.SplitBounds(c.data.bill.value, c.data.tip.value, n);
    }
  }

  lemma RaisesOverflow(c: Dialogue, text: string)
    requires Valid(c) && c.state == People
    requires ParseInt(text).Some? && ParseInt(text).value >= FloatOverflowBound
    ensures Deliver(c, PlainText(text)) == Failure(IntTooLarge)
  {
    FloatOverflowBoundIsLarge();
    IntNumeralIsNotCustom(text);
    assert PeopleCount(c.data, text) == Failure(IntTooLarge);
  }

  lemma ReportsSplit(c: Dialogue, text: string)
    requires Valid(c) && c.state == People
    requires ParseInt(text).Some? && 0 < ParseInt(text).value < FloatOverflowBound
    ensures var summary := BillSplit.Compute(c.data.bill.value, c.data.tip.value, ParseInt(text).value);
      Deliver(c, PlainText(text)) == Success(Answer(Step(Ended, c.data, Reply(Report(summary), Removed))))
  {
    IntNumeralIsNotCustom(text);
  }

  /** A head count too large for a double raises `OverflowError`: no summary
      is sent and the conversation stays at the head count. */
  lemma HugeCountStaysAtPeople(c: Dialogue, text: string)
    requires Valid(c) && c.state == People
    requires ParseInt(text).Some? && ParseInt(text).value >= FloatOverflowBound
    ensures Run(c, [PlainText(text)]) == Trace(c, [IntTooLarge])
  {
    RaisesOverflow(c, text);
    assert [PlainText(text)][1..] == [];
  }

  /** Nothing ever clears the stored bill or tip: once set, they stay set
      through any number of updates, across `/cancel` and a later `/start`. */
  lemma {:induction false} StoredDataPersists(c: Dialogue, events: seq<Event>)
    ensures c.data.bill.Some? ==> Run(c, events).final.data.bill.Some?
    ensures c.data.tip.Some? ==> Run(c, events).final.data.tip.Some?
    decreases |events|
  {
    if |events| > 0 {
      match Deliver(c, events[0])
      case Failure(f) =>
        StoredDataPersists(c, events[1..]);
      case Success(r) =>
        StoredDataPersists(r.after, events[1..]);
    }
  }
}

=== FILE: fixed.dfy ===
/** Fixed-point renderings of whole numbers, used to state what `float()`
    makes of numerals with a point. */
module FixedPoint {
  import opened Wrappers
  import opened Numerals

  /** `k` digits, with leading zeros, spelling `m`. */
  function PadDigits(m: nat, k: nat): (s: string)
    requires m < Pow10(k)
    ensures |s| == k && AllDigits(s)
  {
    if k == 0 then [] else PadDigits(m / 10, k - 1) + [DigitChar(m % 10)]
  }

  /** `n` divided by ten to the `k`, written with `k` digits after the point. */
  function ShowFixed(n: nat, k: nat): string {
    var p := Pow10(k);
    ModBound(n, p);
    var whole := ShowNat(n / p);
    var fraction := PadDigits(n % p, k);
    whole + ['.'] + fraction
  }

  lemma ModBound(n: nat, p: nat)
    requires p >= 1
    ensures 0 <= n / p && n % p < p
  {
  }

  lemma DivMod(n: nat, p: nat)
    requires p >= 1
    ensures n == (n / p) * p + n % p
  {
  }

  lemma {:induction false} DigitsValueOfPad(m: nat, k: nat)
    requires m < Pow10(k)
    ensures DigitsValue(PadDigits(m, k)) == m
  {
    if k > 0 {
      var s := PadDigits(m, k);
      assert s[..|s| - 1] == PadDigits(m / 10, k - 1);
      DigitsValueOfPad(m / 10, k - 1);
    }
  }

  /** The first `c` of `a + [c] + b`, where `a` holds no `c`, is the one after `a`. */
  lemma {:induction false} FirstIndexAfter(a: string, b: string, c: char)
    requires c !in a
    ensures c in a + [c] + b && FirstIndex(a + [c] + b, c) == |a|
  {
    var s := a + [c] + b;
    assert s[|a|] == c;
    if |a| > 0 {
      assert s[1..] == a[1..] + [c] + b;
      FirstIndexAfter(a[1..], b, c);
    }
  }

  /** Digits, a point and digits read as the digits without the point,
      divided by ten to the number of digits after it. */
  lemma ParsePointed(whole: string, fraction: string)
    requires AllDigits(whole) && AllDigits(fraction) && |whole| + |fraction| > 0
    ensures AllDigits(whole + fraction)
    ensures ParseUnsignedDecimal(whole + ['.'] + fraction)
      == Some(DigitsValue(whole + fraction) as real / Pow10(|fraction|) as real)
  {
    var s := whole + ['.'] + fraction;
    assert forall i | 0 <= i < |whole| :: whole[i] != '.' by { assert forall i | 0 <= i < |whole| :: IsDigit(whole[i]); }
    FirstIndexAfter(whole, fraction, '.');
    assert s[..|whole|] == whole && s[|whole| + 1..] == fraction;
    PointedDecimal(s);
  }

  /** A fixed-point numeral reads back through `float()` as its exact value. */
  lemma ShowFixedRoundTrip(n: nat, k: nat)
    ensures ParseReal(ShowFixed(n, k)) == Some(n as real / Pow10(k) as real)
  {
    var p := Pow10(k);
    ModBound(n, p);
    var whole, fraction := ShowNat(n / p), PadDigits(n % p, k);
    var s := whole + ['.'] + fraction;
    assert ShowFixed(n, k) == s;
    assert DigitsValue(whole + fraction) == n by {
      DivMod(n, p);
      DigitsValueOfShowNat(n / p);
      DigitsValueOfPad(n % p, k);
      DigitsValueAppend(whole, fraction);
    }
    ParsePointed(whole, fraction);
    assert ParseUnsignedDecimal(s) == Some(n as real / p as real);
    assert IsDigit(s[0]);
    ParseRealSigns(s);
  }

  /** A numeral with a point, read as `float()` reads it. */
  lemma PointedNumeralExample()
    ensures ParseReal("12.50") == Some(12.5)
  {
    var whole, fraction := "12", "50";
    var s := whole + ['.'] + fraction;
    assert s == "12.50";
    assert DigitsValue(whole + fraction) == 1250 by {
      assert DigitsValue(whole) == 12 by { assert whole[..1] == "1"; }
      assert DigitsValue(fraction) == 50 by { assert fraction[..1] == "5"; }
      assert Pow10(|fraction|) == 100;
      DigitsValueAppend(whole, fraction);
    }
    assert Pow10(|fraction|) == 100;
    ParsePointed(whole, fraction);
    assert ParseUnsignedDecimal(s) == Some(12.5);
    ParseRealSigns(s);
  }
}

=== FILE: handlers.dfy ===
/** The five conversation handlers of the bill-splitting bot: `start`,
    `bill_amount`, `tip_percentage`, `people_count` and `cancel`. Each takes
    the user's stored data and the message text and returns the state to go
    to, the data afterwards and the reply sent. */
module Handlers {
  import opened Wrappers
  import opened Numerals
  import Text
  import BillSplit

  /** The conversation states `BILL`, `TIP`, `PEOPLE` and `ConversationHandler.END`;
      `Ended` is also where a user with no conversation in progress stands. */
  datatype State = Bill | Tip | People | Ended

  /** The bot's per-user data dictionary. Only the keys `'bill'` and `'tip'`
      are ever written; the head count is never stored. */
  datatype Session = Session(bill: Option<real>, tip: Option<real>)

  /** The reply keyboard attached to a message: none, a preset menu, or an
      instruction to remove the current menu. */
  datatype Keyboard = Unchanged | Menu(rows: seq<seq<string>>) | Removed

  /** Which reply the bot sends; the wording is not modelled. */
  datatype Message =
    | Welcome              // greeting, asks for the bill
    | AskPositiveAmount    // bill parsed but not positive
    | AskNumber            // bill did not parse
    | AskTip               // bill stored, asks for the tip
    | AskCustomTip         // asks for a free-form tip
    | AskValidTip          // tip parsed but negative
    | AskPeople            // tip stored, asks for the head count
    | AskNumberOrOption    // tip or head count did not parse
    | AskCustomPeople      // asks for a free-form head count
    | AskValidPeople       // head count parsed but not positive
    | Report(summary: BillSplit.Summary)  // the bill summary
    | Cancelled            // conversation cancelled

  datatype Reply = Reply(message: Message, keyboard: Keyboard)

  /** What a handler returns: the next state, the data afterwards, the reply. */
  datatype Step = Step(state: State, data: Session, reply: Reply)

  /** The exceptions a handler can raise: `KeyError` for a missing key of the
      data dictionary, and `OverflowError` when the head count is too large to
      convert to a double for the division. */
  datatype Fault = MissingKey(key: string) | IntTooLarge

  function Pow2(k: nat): (p: nat)
    ensures p > k
  {
    if k == 0 then 1 else 2 * Pow2(k - 1)
  }

  /** The smallest integer that does not convert to a double: 2^1024 - 2^970,
      halfway between the largest double and 2^1024, which rounds up under
      round-half-to-even. Dividing a float by any integer at least this large
      raises `OverflowError`. */
  const FloatOverflowBound: int := Pow2(MaxExponent) - Pow2(MaxExponent - MantissaBits - 1)

  /** 2^1024 is the first power of two beyond the largest double. */
  const MaxExponent: nat := 1024

  /** A double carries 53 significant bits. */
  const MantissaBits: nat := 53

  lemma {:induction false} Pow2Add(a: nat, b: nat)
    ensures Pow2(a + b) == Pow2(a) * Pow2(b)
  {
    if b > 0 {
      Pow2Add(a, b - 1);
      assert Pow2(a + b) == 2 * Pow2(a + (b - 1));
      assert Pow2(b) == 2 * Pow2(b - 1);
      Double(Pow2(a), Pow2(b - 1));
    }
  }

  lemma Double(x: int, y: int)
    ensures 2 * (x * y) == x * (2 * y)
  {
  }

  /** Between 2^a and 2^(a+b) lie at least b multiples of 2^a. */
  lemma Pow2Gap(a: nat, b: nat)
    ensures Pow2(a + b) - Pow2(a) >= Pow2(a) * b
  {
    var x, y := Pow2(a), Pow2(b);
    Pow2Add(a, b);
    Distribute(x, y);
    MulMono(x, y - 1, b);
  }

  lemma Distribute(x: int, y: int)
    ensures x * y - x == x * (y - 1)
  {
  }

  lemma MulMono(x: nat, y: int, z: int)
    requires y >= z
    ensures x * y >= x * z
  {
  }

  /** Every head count of the preset menu, and many more, converts to a
      double: the bound is at least 54 times 2^970. */
  lemma FloatOverflowBoundIsLarge()
    ensures FloatOverflowBound >= Pow2(MaxExponent - MantissaBits - 1) * (MantissaBits + 1)
    ensures FloatOverflowBound > 6
  {
    Pow2Gap(MaxExponent - MantissaBits - 1, MantissaBits + 1);
  }

  const CustomLabel: string := "Custom"

  /** No integer numeral is the custom choice. */
  lemma IntNumeralIsNotCustom(text: string)
    requires ParseInt(text).Some?
    ensures text != CustomLabel
  {
    assert IsDigit(text[|text| - 1]);
  }

  /** The preset tip menu: five percentages and the custom choice. */
  const TipOptions: seq<seq<string>> := [["10%", "12%", "15%"], ["18%", "20%", "Custom"]]

  /** The preset head-count menu: one to six people and the custom choice. */
  const PeopleOptions: seq<seq<string>> := [["1", "2", "3"], ["4", "5", "6"], ["Custom"]]

  /** The tip text once every percent sign has been removed from it. */
  function StripPercent(text: string): (t: string)
    ensures '%' !in t
  {
    Text.RemoveAll(text, '%')
  }

  /** `start`: greets and always asks for the bill; nothing is stored or cleared. */
  function Start(data: Session): (r: Step)
    ensures r.state == Bill && r.data == data
  {
    Step(Bill, data, Reply(Welcome, Unchanged))
  }

  /** `bill_amount`: a bill that parses to a positive number is stored and
      the tip menu shown; any other text keeps the conversation at the bill. */
  function BillAmount(data: Session, text: string): (r: Step)
    ensures r.state == Tip <==> ParseReal(text).Some? && ParseReal(text).value > 0.0
    ensures r.state == Tip ==> r.data == data.(bill := ParseReal(text)) && r.reply == Reply(AskTip, Menu(TipOptions))
    ensures r.state != Tip ==> r.state == Bill && r.data == data
    ensures ParseReal(text).None? ==> r.reply == Reply(AskNumber, Unchanged)
    ensures ParseReal(text).Some? && ParseReal(text).value <= 0.0 ==> r.reply == Reply(AskPositiveAmount, Unchanged)
  {
    match ParseReal(text)
    case None => Step(Bill, data, Reply(AskNumber, Unchanged))
    case Some(bill) =>
      if bill <= 0.0 then Step(Bill, data, Reply(AskPositiveAmount, Unchanged))
      else Step(Tip, data.(bill := Some(bill)), Reply(AskTip, Menu(TipOptions)))
  }

  /** `tip_percentage`: every `%` is removed first; the custom choice asks for
      a free-form tip, a tip that parses to a non-negative number is stored
      and the head-count menu shown, and any other text keeps the conversation
      at the tip. */
  function TipPercentage(data: Session, text: string): (r: Step)
    ensures var t := StripPercent(text);
      && (t == CustomLabel ==> r == Step(Tip, data, Reply(AskCustomTip, Removed)))
      && (r.state == People <==> t != CustomLabel && ParseReal(t).Some? && ParseReal(t).value >= 0.0)
      && (r.state == People ==> r.data == data.(tip := ParseReal(t)) && r.reply == Reply(AskPeople, Menu(PeopleOptions)))
      && (r.state != People ==> r.state == Tip && r.data == data)
      && (t != CustomLabel && ParseReal(t).None? ==> r.reply == Reply(AskNumberOrOption, Menu(TipOptions)))
      && (t != CustomLabel && ParseReal(t).Some? && ParseReal(t).value < 0.0 ==> r.reply == Reply(AskValidTip, Unchanged))
  {
    var t := StripPercent(text);
    if t == CustomLabel then Step(Tip, data, Reply(AskCustomTip, Removed))
    else
      match ParseReal(t)
      case None => Step(Tip, data, Reply(AskNumberOrOption, Menu(TipOptions)))
      case Some(tip) =>
        if tip < 0.0 then Step(Tip, data, Reply(AskValidTip, Unchanged))
        else Step(People, data.(tip := Some(tip)), Reply(AskPeople, Menu(PeopleOptions)))
  }

  /** `people_count`: the exact text `Custom` asks for a free-form count; a
      positive integer ends the conversation with the summary of the stored
      bill and tip; any other text keeps the conversation at the head count.
      Reading a bill or tip that was never stored raises `KeyError`, and a
      count too large for a double raises `OverflowError` in the division. */
  function PeopleCount(data: Session, text: string): (r: Result<Step, Fault>)
    ensures text == CustomLabel ==> r == Success(Step(People, data, Reply(AskCustomPeople, Removed)))
    ensures text != CustomLabel && ParseInt(text).None? ==>
      r == Success(Step(People, data, Reply(AskNumberOrOption, Menu(PeopleOptions))))
    ensures text != CustomLabel && ParseInt(text).Some? && ParseInt(text).value <= 0 ==>
      r == Success(Step(People, data, Reply(AskValidPeople, Menu(PeopleOptions))))
    ensures r.Failure? <==>
      && text != CustomLabel && ParseInt(text).Some? && ParseInt(text).value > 0
      && (data.bill.None? || data.tip.None? || ParseInt(text).value >= FloatOverflowBound)
    ensures r.Failure? ==>
      r.error == (if data.bill.None? then MissingKey("bill") else if data.tip.None? then MissingKey("tip") else IntTooLarge)
    ensures r.Success? ==> r.value.data == data
    ensures r.Success? ==>
      (r.value.state == Ended <==> text != CustomLabel && ParseInt(text).Some? && ParseInt(text).value > 0)
    ensures r.Success? && r.value.state != Ended ==> r.value.state == People
    ensures r.Success? && r.value.state == Ended ==>
      r.value.reply == Reply(Report(BillSplit.Compute(data.bill.value, data.tip.value, ParseInt(text).value)), Removed)
  {
    if text == CustomLabel then Success(Step(People, data, Reply(AskCustomPeople, Removed)))
    else
      match ParseInt(text)
      case None => Success(Step(People, data, Reply(AskNumberOrOption, Menu(PeopleOptions))))
      case Some(people) =>
        if people <= 0 then Success(Step(People, data, Reply(AskValidPeople, Menu(PeopleOptions))))
        else if data.bill.None? then Failure(MissingKey("bill"))
        else if data.tip.None? then Failure(MissingKey("tip"))
        else if people >= FloatOverflowBound then Failure(IntTooLarge)
        else
          var summary := BillSplit.Compute(data.bill.value, data.tip.value, people);
          Success(Step(Ended, data, Reply(Report(summary), Removed)))
  }

  /** `cancel`: ends the conversation and removes the menu; the stored data stays. */
  function Cancel(data: Session): (r: Step)
    ensures r.state == Ended && r.data == data
  {
    Step(Ended, data, Reply(Cancelled, Removed))
  }
}

=== FILE: numerals.dfy ===
/** Decimal numerals: the part of Python's `float()` and `int()` that the bot
    relies on, over plain ASCII text. A numeral is an optional sign followed
    by decimal digits; a real numeral may carry one decimal point. Anything
    else is rejected, as `float()`/`int()` reject it with `ValueError`. */
module Numerals {
  import opened Wrappers
  import Text

  predicate IsDigit(c: char) {
    '0' <= c <= '9'
  }

  predicate AllDigits(s: string) {
    forall i :: 0 <= i < |s| ==> IsDigit(s[i])
  }

  function DigitValue(c: char): nat
    requires IsDigit(c)
  {
    c as int - '0' as int
  }

  function DigitChar(d: nat): (c: char)
    requires d < 10
    ensures IsDigit(c) && DigitValue(c) == d
  {
    ('0' as int + d) as char
  }

  /** The value of a string of digits, most significant digit first. */
  function DigitsValue(s: string): nat
    requires AllDigits(s)
    decreases |s|
  {
    if |s| == 0 then 0 else DigitsValue(s[..|s| - 1]) * 10 + DigitValue(s[|s| - 1])
  }

  function Pow10(k: nat): (p: nat)
    ensures p >= 1
  {
    if k == 0 then 1 else 10 * Pow10(k - 1)
  }

  /** Position of the first occurrence of `c` in `s`. */
  function FirstIndex(s: string, c: char): (k: nat)
    requires c in s
    ensures k < |s| && s[k] == c
    ensures c !in s[..k]
  {
    if s[0] == c then 0
    else
      assert c in s[1..] by { var i :| 0 <= i < |s| && s[i] == c; assert s[1..][i - 1] == c; }
      var k := 1 + FirstIndex(s[1..], c);
      assert s[..k] == [s[0]] + s[1..][..k - 1];
      k
  }

  /** The canonical decimal rendering of a natural number, without leading zeros. */
  function ShowNat(n: nat): (s: string)
    ensures |s| > 0 && AllDigits(s)
  {
    if n < 10 then [DigitChar(n)] else ShowNat(n / 10) + [DigitChar(n % 10)]
  }

  /** Unsigned integer numeral: one or more digits. */
  function ParseNat(s: string): Option<nat> {
    if |s| > 0 && AllDigits(s) then Some(DigitsValue(s)) else None
  }

  /** A leading `-` or `+` and the rest of the text; `negative` is true only for `-`. */
  function SplitSign(s: string): (r: (bool, string))
    ensures r.0 ==> |s| > 0 && s[0] == '-'
    ensures |s| > 0 && (s[0] == '-' || s[0] == '+') ==> r.1 == s[1..]
    ensures !(|s| > 0 && (s[0] == '-' || s[0] == '+')) ==> r == (false, s)
  {
    if |s| > 0 && s[0] == '-' then (true, s[1..])
    else if |s| > 0 && s[0] == '+' then (false, s[1..])
    else (false, s)
  }

  /** The integer numerals accepted by `int()`: an optional sign and at least one digit. */
  function ParseInt(s: string): (r: Option<int>)
    ensures r.Some? && r.value < 0 ==> |s| > 0 && s[0] == '-'
  {
    var (negative, digits) := SplitSign(s);
    match ParseNat(digits)
    case None => None
    case Some(n) => Some(if negative then -(n as int) else n)
  }

  /** The shape of an unsigned decimal: with its point (if any) removed it is a
      non-empty run of digits, and it has at most one point. */
  predicate DecimalSyntax(s: string) {
    var digits := Text.RemoveAll(s, '.');
    |digits| > 0 && AllDigits(digits) && |s| <= |digits| + 1
  }

  /** The number of digits after the point; zero when there is no point. */
  function Scale(s: string): nat {
    if '.' in s then |s| - 1 - FirstIndex(s, '.') else 0
  }

  /** Unsigned decimal: digits, optionally a point and more digits, with at
      least one digit on either side of the point (`"5"`, `"5."`, `".5"`, `"5.25"`).
      Its value is the digits read as one integer, divided by ten to the
      number of digits after the point. */
  function ParseUnsignedDecimal(s: string): (r: Option<real>)
    ensures r.Some? <==> DecimalSyntax(s)
    ensures r.Some? ==> r.value >= 0.0
    ensures r.Some? ==> r.value == DigitsValue(Text.RemoveAll(s, '.')) as real / Pow10(Scale(s)) as real
  {
    if '.' !in s then
      PlainDecimal(s);
      match ParseNat(s)
      case None => None
      case Some(n) => Some(n as real)
    else
      var k := FirstIndex(s, '.');
      var whole, fraction := s[..k], s[k + 1..];
      if AllDigits(whole) && AllDigits(fraction) && |whole| + |fraction| > 0 then
        PointedCase(s, whole, fraction);
        Some(DigitsValue(whole + fraction) as real / Pow10(|fraction|) as real)
      else
        PointedDecimal(s);
        None
  }

  /** The value of a well-formed pointed decimal, in the terms of its syntax. */
  lemma PointedCase(s: string, whole: string, fraction: string)
    requires '.' in s && whole == s[..FirstIndex(s, '.')] && fraction == s[FirstIndex(s, '.') + 1..]
    requires AllDigits(whole) && AllDigits(fraction) && |whole| + |fraction| > 0
    ensures DecimalSyntax(s) && AllDigits(whole + fraction)
    ensures Text.RemoveAll(s, '.') == whole + fraction && Scale(s) == |fraction|
    ensures DigitsValue(whole + fraction) as real / Pow10(|fraction|) as real >= 0.0
  {
    PointedDecimal(s);
    AllDigitsAppend(whole, fraction);
    Quotient(DigitsValue(whole + fraction), Pow10(|fraction|));
  }

  lemma Quotient(n: nat, p: nat)
    requires p >= 1
    ensures n as real / p as real >= 0.0
  {
  }

  /** A pointed decimal's value is its whole part plus its fraction digits
      over ten to their number. */
  lemma DecimalParts(s: string)
    requires '.' in s && ParseUnsignedDecimal(s).Some?
    ensures var k := FirstIndex(s, '.');
      && AllDigits(s[..k]) && AllDigits(s[k + 1..])
      && ParseUnsignedDecimal(s).value
         == DigitsValue(s[..k]) as real + DigitsValue(s[k + 1..]) as real / Pow10(|s[k + 1..]|) as real
  {
    var k := FirstIndex(s, '.');
    var whole, fraction := s[..k], s[k + 1..];
    var p := Pow10(|fraction|) as real;
    assert AllDigits(whole) && AllDigits(fraction)
      && ParseUnsignedDecimal(s).value == DigitsValue(whole + fraction) as real / p by {
      PointedDecimal(s);
      assert DecimalSyntax(s);
    }
    DecimalValue(whole, fraction);
  }

  lemma AllDigitsAppend(a: string, b: string)
    ensures AllDigits(a + b) <==> AllDigits(a) && AllDigits(b)
  {
    if AllDigits(a + b) {
      forall i | 0 <= i < |a| ensures IsDigit(a[i]) { assert a[i] == (a + b)[i]; }
      forall i | 0 <= i < |b| ensures IsDigit(b[i]) { assert b[i] == (a + b)[|a| + i]; }
    }
    if AllDigits(a) && AllDigits(b) {
      forall i | 0 <= i < |a + b| ensures IsDigit((a + b)[i]) {
        if i >= |a| { assert (a + b)[i] == b[i - |a|]; }
      }
    }
  }

  /** A text without a point is a decimal exactly when it is a run of digits. */
  lemma PlainDecimal(s: string)
    requires '.' !in s
    ensures DecimalSyntax(s) <==> |s| > 0 && AllDigits(s)
    ensures Scale(s) == 0 && Pow10(Scale(s)) == 1
    ensures Text.RemoveAll(s, '.') == s
  {
    Text.RemoveAllAbsent(s, '.');
  }

  /** Removing the point of a pointed text keeps the digits before the first
      point and whatever of the rest is not a point. */
  lemma PointSplit(s: string)
    requires '.' in s
    ensures var k := FirstIndex(s, '.');
      && Text.RemoveAll(s, '.') == s[..k] + Text.RemoveAll(s[k + 1..], '.')
      && Scale(s) == |s[k + 1..]|
  {
    var k := FirstIndex(s, '.');
    var whole, fraction := s[..k], s[k + 1..];
    assert s == whole + ['.'] + fraction;
    Text.RemoveAllAppend(whole + ['.'], fraction, '.');
    Text.RemoveAllIgnoresAffix(whole, '.');
    Text.RemoveAllAbsent(whole, '.');
  }

  /** How a text with a point splits into the digits before and after it. */
  lemma PointedDecimal(s: string)
    requires '.' in s
    ensures var k := FirstIndex(s, '.');
      var whole, fraction := s[..k], s[k + 1..];
      && (DecimalSyntax(s) <==> AllDigits(whole) && AllDigits(fraction) && |whole| + |fraction| > 0)
      && Scale(s) == |fraction|
      && (AllDigits(fraction) ==> Text.RemoveAll(s, '.') == whole + fraction)
  {
    var k := FirstIndex(s, '.');
    var whole, fraction := s[..k], s[k + 1..];
    PointSplit(s);
    var digits := Text.RemoveAll(s, '.');
    if '.' in fraction {
      assert !DecimalSyntax(s) by {
        assert |Text.RemoveAll(fraction, '.')| < |fraction|;
      }
      assert !AllDigits(fraction) by {
        var i :| 0 <= i < |fraction| && fraction[i] == '.';
        assert !IsDigit(fraction[i]);
      }
    } else {
      assert digits == whole + fraction && |s| == |digits| + 1 by {
        Text.RemoveAllAbsent(fraction, '.');
      }
      AllDigitsAppend(whole, fraction);
    }
  }

  /** The value of a decimal scaled by ten to its number of fraction digits
      is its digits read as one integer. */
  lemma DecimalValue(whole: string, fraction: string)
    requires AllDigits(whole) && AllDigits(fraction)
    ensures AllDigits(whole + fraction)
    ensures var p := Pow10(|fraction|) as real;
      var x := DigitsValue(whole) as real + DigitsValue(fraction) as real / p;
      x >= 0.0 && x == DigitsValue(whole + fraction) as real / p
  {
    DigitsValueAppend(whole, fraction);
    RealDecimal(DigitsValue(whole), DigitsValue(fraction), Pow10(|fraction|));
  }

  lemma RealDecimal(w: nat, f: nat, p: nat)
    requires p >= 1
    ensures var x := w as real + f as real / p as real;
      x >= 0.0 && x == (w * p + f) as real / p as real
  {
    ScaleBack(w as real, f as real, p as real);
    assert (w * p + f) as real == w as real * p as real + f as real;
    Unscale(w as real + f as real / p as real, p as real, (w * p + f) as real);
  }

  lemma Unscale(x: real, p: real, d: real)
    requires p > 0.0 && x * p == d
    ensures x == d / p
  {
  }

  lemma ScaleBack(w: real, f: real, p: real)
    requires p > 0.0
    ensures (w + f / p) * p == w * p + f
    ensures w >= 0.0 && f >= 0.0 ==> w + f / p >= 0.0
  {
    assert (f / p) * p == f;
  }

  /** Reading digits after other digits shifts the first ones left. */
  lemma {:induction false} DigitsValueAppend(a: string, b: string)
    requires AllDigits(a) && AllDigits(b)
    ensures AllDigits(a + b)
    ensures DigitsValue(a + b) == DigitsValue(a) * Pow10(|b|) + DigitsValue(b)
  {
    AllDigitsAppend(a, b);
    if |b| == 0 {
      assert a + b == a;
    } else {
      var b' := b[..|b| - 1];
      var d := DigitValue(b[|b| - 1]);
      assert (a + b)[..|a + b| - 1] == a + b';
      assert (a + b)[|a + b| - 1] == b[|b| - 1];
      DigitsValueAppend(a, b');
      assert DigitsValue(a + b) == DigitsValue(a + b') * 10 + d;
      assert DigitsValue(b) == DigitsValue(b') * 10 + d;
      assert Pow10(|b|) == 10 * Pow10(|b'|);
      Shift(DigitsValue(a), DigitsValue(b'), Pow10(|b'|), d);
    }
  }

  lemma Shift(x: nat, y: nat, p: nat, d: nat)
    ensures (x * p + y) * 10 + d == x * (10 * p) + (y * 10 + d)
  {
  }

  /** The real numerals accepted by `float()`: an optional sign and an unsigned decimal. */
  function ParseReal(s: string): (r: Option<real>)
    ensures r.Some? && r.value < 0.0 ==> |s| > 0 && s[0] == '-'
  {
    var (negative, rest) := SplitSign(s);
    match ParseUnsignedDecimal(rest)
    case None => None
    case Some(x) => Some(if negative then -x else x)
  }

  lemma {:induction false} DigitsValueOfShowNat(n: nat)
    ensures DigitsValue(ShowNat(n)) == n
  {
    if n >= 10 {
      var s := ShowNat(n);
      assert s[..|s| - 1] == ShowNat(n / 10);
      DigitsValueOfShowNat(n / 10);
    }
  }

  /** Rendering a number and parsing it back gives the number. */
  lemma ShowNatRoundTrip(n: nat)
    ensures ParseNat(ShowNat(n)) == Some(n)
    ensures ParseInt(ShowNat(n)) == Some(n)
  {
    DigitsValueOfShowNat(n);
  }

  /** Every text `int()` accepts, `float()` accepts with the same value. */
  lemma IntNumeralIsRealNumeral(s: string)
    requires ParseInt(s).Some?
    ensures ParseReal(s) == Some(ParseInt(s).value as real)
  {
  }

  /** A rendered number reads back through `float()` as the same number. */
  lemma ShowNatParsesAsReal(n: nat)
    ensures ParseReal(ShowNat(n)) == Some(n as real)
  {
    ShowNatRoundTrip(n);
    IntNumeralIsRealNumeral(ShowNat(n));
  }

  function Negate(r: Option<real>): Option<real> {
    match r
    case None => None
    case Some(x) => Some(-x)
  }

  /** `float()` reads a leading `-` as negation and a leading `+` as nothing. */
  lemma ParseRealSigns(s: string)
    requires |s| == 0 || (s[0] != '-' && s[0] != '+')
    ensures ParseReal(s) == ParseUnsignedDecimal(s)
    ensures ParseReal("+" + s) == ParseUnsignedDecimal(s)
    ensures ParseReal("-" + s) == Negate(ParseUnsignedDecimal(s))
  {
    assert SplitSign(s) == (false, s);
    assert SplitSign("+" + s) == (false, s) by { assert ("+" + s)[1..] == s; }
    assert SplitSign("-" + s) == (true, s) by { assert ("-" + s)[1..] == s; }
  }

  /** `int()` reads a leading `-` as negation and a leading `+` as nothing. */
  lemma ParseIntSigns(s: string)
    requires |s| == 0 || (s[0] != '-' && s[0] != '+')
    ensures ParseInt(s) == (match ParseNat(s) case None => None case Some(n) => Some(n as int))
    ensures ParseInt("+" + s) == (match ParseNat(s) case None => None case Some(n) => Some(n as int))
    ensures ParseInt("-" + s) == (match ParseNat(s) case None => None case Some(n) => Some(-(n as int)))
  {
    assert ("+" + s)[1..] == s;
    assert ("-" + s)[1..] == s;
  }

  /** A leading zero does not change the value of a digit run. */
  lemma ParseNatLeadingZero(s: string)
    requires |s| > 0
    ensures ParseNat("0" + s) == ParseNat(s)
  {
    if AllDigits(s) {
      DigitsValueAppend("0", s);
    } else {
      var i :| 0 <= i < |s| && !IsDigit(s[i]);
      assert ("0" + s)[i + 1] == s[i];
    }
  }

  /** Integer numerals with a sign or leading zeros, read as `int()` reads them. */
  lemma IntNumeralExamples()
    ensures ParseInt("-3") == Some(-3)
    ensures ParseInt("+3") == Some(3)
    ensures ParseInt("007") == Some(7)
  {
    ShowNatRoundTrip(3);
    assert ShowNat(3) == "3";
    ParseIntSigns("3");
    assert "-3" == "-" + "3" && "+3" == "+" + "3";
    ShowNatRoundTrip(7);
    assert ShowNat(7) == "7";
    ParseNatLeadingZero("7");
    ParseNatLeadingZero("07");
    assert "007" == "0" + "07" && "07" == "0" + "7";
  }
}

=== FILE: presets.dfy ===
/** Properties of the handlers on particular inputs: the percent sign, the
    preset menus and the `Custom` choice. */
module Presets {
  import opened Wrappers
  import opened Numerals
  import Text
  import opened Handlers
  import FixedPoint

  /** Texts that agree once their percent signs are gone get identical answers
      from the tip handler. */
  lemma TipDependsOnlyOnStrippedText(data: Session, a: string, b: string)
    requires StripPercent(a) == StripPercent(b)
    ensures TipPercentage(data, a) == TipPercentage(data, b)
  {
  }

  /** A trailing or leading percent sign makes no difference to the tip handler:
      `"15%"` and `"15"` are the same answer. */
  lemma PercentSignIrrelevant(data: Session, text: string)
    ensures TipPercentage(data, text + "%") == TipPercentage(data, text)
    ensures TipPercentage(data, "%" + text) == TipPercentage(data, text)
  {
    Text.RemoveAllIgnoresAffix(text, '%');
  }

  /** A percentage written as a whole number, with or without `%`, is accepted
      and stored as that number. */
  lemma WholeTipAccepted(data: Session, n: nat)
    ensures TipPercentage(data, ShowNat(n) + "%") == TipPercentage(data, ShowNat(n))
    ensures TipPercentage(data, ShowNat(n)) == Step(People, data.(tip := Some(n as real)), Reply(AskPeople, Menu(PeopleOptions)))
  {
    PercentSignIrrelevant(data, ShowNat(n));
    var s := ShowNat(n);
    assert '%' !in s;
    Text.RemoveAllAbsent(s, '%');
    assert s != CustomLabel by { assert IsDigit(s[0]); }
    ShowNatParsesAsReal(n);
  }

  lemma ShowNatSmall()
    ensures ShowNat(0) == "0" && ShowNat(1) == "1" && ShowNat(2) == "2" && ShowNat(3) == "3"
    ensures ShowNat(4) == "4" && ShowNat(5) == "5" && ShowNat(6) == "6"
    ensures ShowNat(10) == "10" && ShowNat(12) == "12" && ShowNat(15) == "15"
    ensures ShowNat(18) == "18" && ShowNat(20) == "20"
  {
  }

  /** Every preset of the tip menu other than `Custom` is accepted, stores a
      positive percentage and moves the conversation to the head count. */
  lemma TipPresetsAccepted(data: Session)
    ensures forall i, j | 0 <= i < |TipOptions| && 0 <= j < |TipOptions[i]| && TipOptions[i][j] != CustomLabel ::
      && TipPercentage(data, TipOptions[i][j]).state == People
      && TipPercentage(data, TipOptions[i][j]).data.tip.Some?
      && TipPercentage(data, TipOptions[i][j]).data.tip.value in {10.0, 12.0, 15.0, 18.0, 20.0}
  {
    forall i, j | 0 <= i < |TipOptions| && 0 <= j < |TipOptions[i]| && TipOptions[i][j] != CustomLabel
      ensures TipPercentage(data, TipOptions[i][j]).state == People
      ensures TipPercentage(data, TipOptions[i][j]).data.tip.Some?
      ensures TipPercentage(data, TipOptions[i][j]).data.tip.value in {10.0, 12.0, 15.0, 18.0, 20.0}
    {
      var n: nat := if i == 0 then [10, 12, 15][j] else [18, 20, 0][j];
      assert TipOptions[i][j] == ShowNat(n) + "%" by { ShowNatSmall(); }
      WholeTipAccepted(data, n);
    }
  }

  /** A head count from one to six, written in decimal, ends the conversation
      once a bill and a tip are stored. */
  lemma SmallCountAccepted(data: Session, n: nat)
    requires data.bill.Some? && data.tip.Some? && 1 <= n <= 6
    ensures ParseInt(ShowNat(n)) == Some(n)
    ensures PeopleCount(data, ShowNat(n)).Success? && PeopleCount(data, ShowNat(n)).value.state == Ended
  {
    ShowNatRoundTrip(n);
    IntNumeralIsNotCustom(ShowNat(n));
    FloatOverflowBoundIsLarge();
  }

  /** Every preset of the head-count menu other than `Custom` is a positive
      integer, and with a bill and tip stored it ends the conversation. */
  lemma PeoplePresetsAccepted(data: Session)
    requires data.bill.Some? && data.tip.Some?
    ensures forall i, j | 0 <= i < |PeopleOptions| && 0 <= j < |PeopleOptions[i]| && PeopleOptions[i][j] != CustomLabel ::
      && ParseInt(PeopleOptions[i][j]).Some?
      && 1 <= ParseInt(PeopleOptions[i][j]).value <= 6
      && PeopleCount(data, PeopleOptions[i][j]).Success?
      && PeopleCount(data, PeopleOptions[i][j]).value.state == Ended
  {
    forall i, j | 0 <= i < |PeopleOptions| && 0 <= j < |PeopleOptions[i]| && PeopleOptions[i][j] != CustomLabel
      ensures ParseInt(PeopleOptions[i][j]).Some?
      ensures 1 <= ParseInt(PeopleOptions[i][j]).value <= 6
      ensures PeopleCount(data, PeopleOptions[i][j]).Success?
      ensures PeopleCount(data, PeopleOptions[i][j]).value.state == Ended
    {
      var n: nat := if i == 0 then [1, 2, 3][j] else [4, 5, 6][j];
      assert PeopleOptions[i][j] == ShowNat(n) by { ShowNatSmall(); }
      SmallCountAccepted(data, n);
    }
  }

  /** A single `%` anywhere inside `Custom` still selects the custom tip. */
  lemma PercentInsideCustom(data: Session, a: string, b: string)
    requires a + b == CustomLabel
    ensures TipPercentage(data, a + "%" + b) == Step(Tip, data, Reply(AskCustomTip, Removed))
  {
    assert '%' !in a && '%' !in b by {
      assert forall i | 0 <= i < |a| :: a[i] == CustomLabel[i];
      assert forall i | 0 <= i < |b| :: b[i] == CustomLabel[|a| + i];
    }
    Text.RemoveAllSingle(a, b, '%');
    assert a + "%" + b == a + ['%'] + b;
  }

  /** At the tip, `Custom` is recognised after the percent signs are removed,
      so `"Cus%tom"` asks for a free-form tip; at the head count the match is
      exact, so the same text is rejected as a number. Both keep the state
      and the data. */
  lemma CustomMatching(data: Session)
    ensures TipPercentage(data, "Cus%tom") == Step(Tip, data, Reply(AskCustomTip, Removed))
    ensures PeopleCount(data, "Cus%tom") == Success(Step(People, data, Reply(AskNumberOrOption, Menu(PeopleOptions))))
  {
    assert TipPercentage(data, "Cus%tom") == Step(Tip, data, Reply(AskCustomTip, Removed)) by {
      PercentInsideCustom(data, "Cus", "tom");
      assert "Cus" + "%" + "tom" == "Cus%tom";
    }
    PercentIsNotACount(data, "Cus%tom");
  }

  /** A text with a `%` where `Custom` has a letter is neither the custom
      choice nor a count: the head-count menu is shown again. */
  lemma PercentIsNotACount(data: Session, text: string)
    requires |text| > 3 && text[3] == '%'
    ensures PeopleCount(data, text) == Success(Step(People, data, Reply(AskNumberOrOption, Menu(PeopleOptions))))
  {
    assert text[3] != CustomLabel[3];
    assert !IsDigit(text[3]);
  }

  /** A zero tip is accepted, and so is a tip written `"0%"`. */
  lemma ZeroTipAccepted(data: Session)
    ensures TipPercentage(data, "0").data.tip == Some(0.0)
    ensures TipPercentage(data, "0%") == TipPercentage(data, "0")
    ensures TipPercentage(data, "0").state == People
  {
  }

  /** Text that is not a number keeps the conversation at the bill, nothing stored. */
  lemma BillRejectsText(data: Session)
    ensures BillAmount(data, "abc") == Step(Bill, data, Reply(AskNumber, Unchanged))
  {
  }

  /** A zero or negative amount keeps the conversation at the bill, nothing stored. */
  lemma BillRejectsNonPositive(data: Session)
    ensures BillAmount(data, "0") == Step(Bill, data, Reply(AskPositiveAmount, Unchanged))
    ensures BillAmount(data, "-5") == Step(Bill, data, Reply(AskPositiveAmount, Unchanged))
  {
  }

  /** A decimal amount is stored exactly and the tip menu is shown. */
  lemma BillAcceptsDecimal(data: Session)
    ensures BillAmount(data, "12.50") == Step(Tip, data.(bill := Some(12.5)), Reply(AskTip, Menu(TipOptions)))
  {
    FixedPoint.PointedNumeralExample();
  }
}

=== FILE: split.dfy ===
/** The bill-split arithmetic of the final conversation step, over exact reals. */
module BillSplit {

  /** Everything the bill summary reports. */
  datatype Summary = Summary(
    bill: real,       // the amount entered
    tip: real,        // the tip percentage entered
    people: int,      // the number of people sharing
    tipAmount: real,  // the tip in currency units
    total: real,      // bill plus tip
    perPerson: real)  // each person's share of the total

  /** The split as computed from a bill, a tip percentage and a head count:
      the shares add back up to the total, and the total is the bill scaled
      by (100 + tip) percent. */
  function Compute(bill: real, tip: real, people: int): (r: Summary)
    requires people != 0
    ensures r.bill == bill && r.tip == tip && r.people == people
    ensures r.perPerson * people as real == r.total
    ensures r.total * 100.0 == bill * (100.0 + tip)
    ensures r.tipAmount == r.total - bill
  {
    var tipAmount := bill * (tip / 100.0);
    var total := bill + tipAmount;
    Summary(bill, tip, people, tipAmount, total, total / people as real)
  }

  /** With a positive bill, a non-negative tip and a positive head count, the
      tip never lowers the bill and each share is positive and at most the total. */
  lemma SplitBounds(bill: real, tip: real, people: int)
    requires bill > 0.0 && tip >= 0.0 && people > 0
    ensures var s := Compute(bill, tip, people);
      && s.tipAmount >= 0.0
      && s.total >= bill
      && 0.0 < s.perPerson <= s.total
  {
    var s := Compute(bill, tip, people);
    assert s.tipAmount >= 0.0 by {
      assert tip / 100.0 >= 0.0;
    }
    assert s.perPerson * people as real == s.total;
    assert s.perPerson > 0.0;
    assert s.total - s.perPerson == s.perPerson * (people - 1) as real;
  }

  /** Two worked examples: 100 at 15% for 2, and 50 at 0% for 3. */
  lemma SplitExamples()
    ensures Compute(100.0, 15.0, 2) == Summary(100.0, 15.0, 2, 15.0, 115.0, 57.5)
    ensures var s := Compute(50.0, 0.0, 3);
      s.tipAmount == 0.0 && s.total == 50.0 && s.perPerson * 3.0 == 50.0
      && 16.66 < s.perPerson < 16.67
  {
  }
}

=== FILE: text.dfy ===
/** Character removal, as Python's `str.replace(c, '')` performs it. */
module Text {

  /** `s` with every occurrence of `c` deleted; the other characters keep their order. */
  function RemoveAll(s: string, c: char): (r: string)
    ensures c !in r
    ensures |r| <= |s|
    ensures c in s ==> |r| < |s|
    ensures forall x :: x != c ==> multiset(r)[x] == multiset(s)[x]
  {
    if |s| == 0 then []
    else
      assert s == [s[0]] + s[1..];
      (if s[0] == c then [] else [s[0]]) + RemoveAll(s[1..], c)
  }

  /** Removal distributes over concatenation. */
  lemma {:induction false} RemoveAllAppend(a: string, b: string, c: char)
    ensures RemoveAll(a + b, c) == RemoveAll(a, c) + RemoveAll(b, c)
  {
    if |a| > 0 {
      assert (a + b)[1..] == a[1..] + b;
      RemoveAllAppend(a[1..], b, c);
    } else {
      assert a + b == b;
    }
  }

  /** Text without `c` is left as it is. */
  lemma {:induction false} RemoveAllAbsent(s: string, c: char)
    requires c !in s
    ensures RemoveAll(s, c) == s
  {
    if |s| > 0 {
      assert c !in s[1..];
      RemoveAllAbsent(s[1..], c);
    }
  }

  /** Removing twice is removing once. */
  lemma RemoveAllIdempotent(s: string, c: char)
    ensures RemoveAll(RemoveAll(s, c), c) == RemoveAll(s, c)
  {
    RemoveAllAbsent(RemoveAll(s, c), c);
  }

  /** Appending or prepending `c` changes nothing once `c` is removed. */
  lemma RemoveAllIgnoresAffix(s: string, c: char)
    ensures RemoveAll(s + [c], c) == RemoveAll(s, c)
    ensures RemoveAll([c] + s, c) == RemoveAll(s, c)
  {
    RemoveAllAppend(s, [c], c);
    RemoveAllAppend([c], s, c);
    assert RemoveAll([c], c) == [];
  }

  /** A single `c` between two texts free of `c` is simply dropped. */
  lemma RemoveAllSingle(a: string, b: string, c: char)
    requires c !in a && c !in b
    ensures RemoveAll(a + [c] + b, c) == a + b
  {
    RemoveAllAppend(a + [c], b, c);
    RemoveAllIgnoresAffix(a, c);
    RemoveAllAbsent(a, c);
    RemoveAllAbsent(b, c);
  }
}

=== FILE: wrappers.dfy ===
/** Failure-carrying datatypes shared by the rest of the model. */
module Wrappers {

  /** A value that may be absent: the result of a parse that can fail, or a
      key of the per-user data dictionary that may not have been set yet. */
  datatype Option<+T> = None | Some(value: T)

  /** The outcome of a handler that may raise instead of returning. */
  datatype Result<+R, +E> = Success(value: R) | Failure(error: E)
}
